=== FILE: README.md ===
# Argvs — a verified model of the command-line argument store

`Argvs` (src/Argvs/Argvs.php) turns a process's argument vector into a small
store. The first element is the script name. Each `key=value` token becomes an
entry; the same key may occur many times. Each token without `=` becomes a
flag, and a help or verbose word sets a sticky switch. Tokens with two or more
`=` are dropped. Lookups normalise the key by removing its leading dashes, when
that mode is on. A lookup returns null, one value or the ordered list of values,
and its answer is memoised per key and per `uniqueValues` mode. The store is
reached through a process-wide `getInstance`.

The model is written in Dafny as immutable values and pure functions:

- `Dashes`: `removeLeadingDash`, which is PHP's `ltrim($val, '-')`.
- `Tokens`: `explode('=')`, its inverse `implode`, and the three-way
  classification of a token.
- `Lookup`: the entries and the scan `getArg` performs on a cache miss. The
  scan is given both as a function and as the loop the source writes.
- `Argvs`: the store (`Store`) and every public and parsing operation. These
  are the constructor, `clear`, `getInstance`, `processArguments`,
  `addArg`/`removeArg`/`getArg` and `addFlag`/`hasFlag`/`removeFlag`.
  The memo table is modelled faithfully. The invariant `Valid` says that every
  cached answer equals a fresh scan of the current entries and that, while the
  store strips dashes, stored keys carry no leading dash. Every operation preserves it.
- `ArgvsProperties`: reference definitions of what parsing keeps, and the
  lemmas that relate operations to each other and to those definitions.
- `Scenarios`: the behaviour the repository's PHPUnit tests check. Each is
  stated for every argument list of the same shape, not only for the
  literal one the test uses.

Where the source's doc comments and its code disagree, or the code does
something a reader may not expect, the model follows the code:

- **Dash stripping.** `ltrim` removes every leading dash, so `---x` becomes
  `x`. The doc comment of `removeLeadingDash` (src/Argvs/Argvs.php:194-197)
  says only `--` or `-` is removed.
- **`clear` keeps the flags.** `clear` resets entries, cache, script, help and
  verbose, but not `$flags`. Flags of earlier argument lists survive a reparse
  (`GetInstanceKeepsEarlierFlags`).
- **The first `getInstance` parses twice.** It constructs the instance, which
  parses, and then clears and parses again. The entries appear once, but every
  flag appears twice (`GetInstanceFirstCallParsesTwice`). `hasFlag` cannot see
  the duplication.
- **A count mismatch keeps the default mode.** The constructor only takes over
  the dash mode when the count matches. `clear` always takes it over.
- **Help and verbose words** are matched against the raw token, before
  dash stripping.

The singleton is modelled as an explicit `Option<Store>` passed to
`GetInstance`: `None` means no instance exists yet. Every operation that mutates
returns the new store. `GetArg` returns the store with its filled cache slot
together with the answer.

## Model

| member | source | states |
|---|---|---|
| Dashes.StripDashes | src/Argvs/Argvs.php:201-204 | the result is a suffix of the input, everything removed is a dash, and the result does not start with a dash |
| Dashes.StripDashesUnique | src/Argvs/Argvs.php:201-204 | only one suffix meets that contract, so it pins `ltrim($val, '-')` down exactly |
| Dashes.StripDashesIdentity | src/Argvs/Argvs.php:201-204 | a string without a leading dash is returned unchanged |
| Dashes.StripDashesIdempotent | src/Argvs/Argvs.php:201-204 | stripping twice is stripping once |
| Dashes.StripDashesAbsorbsDashes | src/Argvs/Argvs.php:201-204 | any run of dashes in front of a string is removed, however long |
| Dashes.DashedFormsAgree | src/Argvs/Argvs.php:194-204 | `--k`, `-k` and `k` have the same normal form |
| Tokens.Explode | src/Argvs/Argvs.php:186 | `explode('=')` gives at least one piece, no piece holds `=`, and joining the pieces with `=` gives the token back |
| Tokens.ExplodeCount | src/Argvs/Argvs.php:186-187 | the number of pieces is the number of `=` plus one |
| Tokens.ExplodeAtSeparator | src/Argvs/Argvs.php:186 | splitting `a=t` with `=`-free `a` yields `a` followed by the pieces of `t` |
| Tokens.ExplodeWithoutSeparator | src/Argvs/Argvs.php:186 | a token without `=` explodes into itself alone |
| Tokens.ExplodeJoin | src/Argvs/Argvs.php:186 | on `=`-free pieces, explode undoes implode, so the two are inverse |
| Tokens.Classify | src/Argvs/Argvs.php:171-190 | a token is a flag exactly when it has no `=`, and the flag is the whole token; both sides of a pair are `=`-free |
| Tokens.ClassifyCounts | src/Argvs/Argvs.php:172-189 | zero `=` gives a flag, exactly one gives a pair that reassembles into the token, two or more drop the token |
| Tokens.ClassifyPair | src/Argvs/Argvs.php:186-188 | `k=v` with `=`-free sides is always read back as the pair (k, v) |
| Lookup.Shape | src/Argvs/Argvs.php:332-341 | the answer carries exactly the collected values, and a list holds at least two |
| Lookup.Dedup | src/Argvs/Argvs.php:328-329 | the deduplicated values are distinct and have the same members as the input |
| Lookup.ScanEntries | src/Argvs/Argvs.php:321-341 | the loop of `getArg` computes the fresh lookup: all matching values in entry order, deduplicated when asked, shaped as null, scalar or list |
| Lookup.MatchValuesMembers | src/Argvs/Argvs.php:323-330 | a value is collected exactly when some entry stores it under the key |
| Lookup.MatchValuesAppend | src/Argvs/Argvs.php:323-331 | collecting over two entry lists is collecting over each in turn, so entry order is kept |
| Lookup.MatchValuesEmpty | src/Argvs/Argvs.php:323-331 | nothing is collected exactly when no entry has the key |
| Lookup.MatchValuesCountsEntries | src/Argvs/Argvs.php:323-331 | the number of collected values is the number of entries under the key |
| Lookup.DedupOfDistinct | src/Argvs/Argvs.php:328-329 | values that are already distinct are left untouched |
| Lookup.DedupFirstOccurrenceOrder | src/Argvs/Argvs.php:328-329 | deduplicated values come in the order of their first occurrence |
| Lookup.DedupAllEqual | src/Argvs/Argvs.php:328-329 | equal values collapse to a single one |
| Lookup.FreshNull | src/Argvs/Argvs.php:321-341 | a lookup is null exactly when no entry has the key, in both modes |
| Argvs.Default | src/Argvs/Argvs.php:37-92 | the property defaults: no script, no entries, flags or cache, switches off, stripping on, and a consistent store |
| Argvs.CountMatches | src/Argvs/Argvs.php:105 | the guard `is_array($args) && count($args) === $num` fails when either is missing or the count is negative, and holds exactly when the list is present and its length is the count |
| Argvs.Options | src/Argvs/Argvs.php:166-169 | the script name followed by the options is the whole argument list; an empty list has no options |
| Argvs.HasFlag | src/Argvs/Argvs.php:129-135 | a flag is found exactly when some stored flag equals its dash-stripped form (stripping on) or the flag itself (stripping off) |
| Argvs.Normalize | src/Argvs/Argvs.php:216-218 | (the same step at lines 179-183, 278-280 and 310-312) with stripping on, the normal form has no leading dash; a key without a leading dash is its own normal form |
| Argvs.NormalizeModes | src/Argvs/Argvs.php:216-218 | with stripping off a key is stored and looked up as written; with stripping on exactly its run of leading dashes is removed, which with `Normalize`'s clauses pins the step to `removeLeadingDash` (lines 201-204) |
| Argvs.AddArg | src/Argvs/Argvs.php:214-222 | one entry is appended under the normalised key, the whole cache is dropped, nothing else changes, and the invariant is kept |
| Argvs.WithoutKey | src/Argvs/Argvs.php:288-295 | no entry under the key survives, every other key's values are unchanged, the count drops by that key's entries, and nothing new appears |
| Argvs.RemoveArg | src/Argvs/Argvs.php:276-297 | it returns true exactly when the normalised key had entries; afterwards the key is gone and other keys are untouched; the surviving entries are `WithoutKey` of the old ones, so they keep their order; exactly the key's two cache slots are evicted and every other slot is kept; the invariant is kept |
| Argvs.GetArg | src/Argvs/Argvs.php:308-342 | on a consistent store the answer equals a fresh scan; the slot for (key, mode) is filled with it; earlier slots and everything else are unchanged |
| Argvs.AddFlag | src/Argvs/Argvs.php:117-121 | the flag is appended verbatim and nothing else changes |
| Argvs.DropAll | src/Argvs/Argvs.php:149-153 | every copy of the two values is removed, and every other value keeps its multiplicity |
| Argvs.RemoveFlag | src/Argvs/Argvs.php:143-156 | afterwards the flag is neither present verbatim nor found by `hasFlag`; every other flag keeps its multiplicity; the invariant is kept |
| Argvs.Step | src/Argvs/Argvs.php:171-190 | one loop iteration keeps script and mode and preserves the invariant |
| Argvs.ParseTokens | src/Argvs/Argvs.php:171-190 | the loop keeps script and mode and preserves the invariant |
| Argvs.ProcessArguments | src/Argvs/Argvs.php:164-192 | the first token becomes the script, and the returned count is the number of stored entries |
| Argvs.Construct | src/Argvs/Argvs.php:103-109 | the result is consistent; a count mismatch leaves the defaults, with the mode untouched; a match takes the mode and the script |
| Argvs.Clear | src/Argvs/Argvs.php:351-362 | the result is consistent and takes the mode; on a mismatch only the flags survive |
| Argvs.GetInstance | src/Argvs/Argvs.php:377-386 | the result is consistent; without both arguments the existing or a default instance is returned unchanged; with both, the mode is the one asked for |
| ArgvsProperties.StepEffect | src/Argvs/Argvs.php:171-190 | one token adds its entry or its flag, sets help or verbose on a raw bare word, and empties the cache only when it adds an entry |
| ArgvsProperties.ParseKeepsPairs | src/Argvs/Argvs.php:186-189 | parsing appends one entry per `key=value` token, in token order, and empties the cache once an entry is added |
| ArgvsProperties.ParseKeepsFlags | src/Argvs/Argvs.php:172-184 | parsing appends one normalised flag per bare token, in token order |
| ArgvsProperties.ParseFindsWords | src/Argvs/Argvs.php:172-178 | help (verbose) becomes true exactly when some raw bare token is a help (verbose) word, wherever it stands |
| ArgvsProperties.ParsePartition | src/Argvs/Argvs.php:164-192 | the whole parse: entries, flags, help, verbose and cache against the reference definitions |
| ArgvsProperties.ProcessArgumentsCount | src/Argvs/Argvs.php:164-192 | the returned count is the number of `key=value` tokens after the script |
| ArgvsProperties.ConstructParses | src/Argvs/Argvs.php:103-109 | a construction with a matching count holds exactly what the tokens contribute |
| ArgvsProperties.ConstructMismatch | src/Argvs/Argvs.php:103-109 | a count mismatch parses nothing and keeps stripping on, whatever mode was asked for |
| ArgvsProperties.ClearParses | src/Argvs/Argvs.php:351-362 | after `clear`, entries, help, verbose and script come from the new tokens only, while the old flags stay in front of the new ones |
| ArgvsProperties.GetInstanceFirstCallParsesTwice | src/Argvs/Argvs.php:377-386 | the first call with arguments holds the entries once and every flag twice |
| ArgvsProperties.GetInstanceParses | src/Argvs/Argvs.php:377-386 | whatever instance existed, a call with a matching count yields a consistent store with exactly the parsed entries, script, help and verbose |
| ArgvsProperties.GetInstanceCountMismatch | src/Argvs/Argvs.php:351-386 | a count mismatch yields no script, no entries, help and verbose off, and a null lookup for every key |
| ArgvsProperties.GetInstanceKeepsEarlierFlags | src/Argvs/Argvs.php:351-386 | a reparse through an existing instance keeps its earlier flags in front |
| ArgvsProperties.GetArgIdempotent | src/Argvs/Argvs.php:314-320 | a repeated lookup is served from the cache and changes nothing |
| ArgvsProperties.GetArgAfterAddArg | src/Argvs/Argvs.php:214-222 | after `addArg` every lookup is a fresh scan, and the new value comes last under its key |
| ArgvsProperties.AddArgRoundTrip | src/Argvs/Argvs.php:214-222 | adding an absent key makes it read back as that one value in both modes |
| ArgvsProperties.RemoveArgThenLookup | src/Argvs/Argvs.php:276-297 | after removal the key reads null, a second removal returns false, and other keys read as before |
| ArgvsProperties.RemoveArgCount | src/Argvs/Argvs.php:287-296 | removal drops exactly the entries under the normalised key |
| ArgvsProperties.WithoutKeyAppend | src/Argvs/Argvs.php:288-295 | removal over two entry lists is removal from each in turn, so survivors keep their order |
| ArgvsProperties.WithoutAbsentKey | src/Argvs/Argvs.php:288-295 | removing a key that is absent leaves the entries unchanged |
| ArgvsProperties.DashedKeysAgree | src/Argvs/Argvs.php:276-312 | with stripping on, `--k`, `-k` and `k` give the same lookup, the same removal and the same flag test, as lines 278-280 and 310-312 strip the key first |
| ArgvsProperties.AddFlagVerbatim | src/Argvs/Argvs.php:117-135 | an added flag is found again unless stripping is on and it starts with a dash, in which case it is missed unless its normal form was already stored |
| ArgvsProperties.StoredKeysFound | src/Argvs/Argvs.php:214-222 | with stripping on, every stored key is already in normal form (addArg strips it before storing), so looking it up as written finds its entries |
| ArgvsProperties.RemoveFlagKeepsOthers | src/Argvs/Argvs.php:143-156 | `hasFlag` of any other flag is unchanged by a removal |
| ArgvsProperties.UniqueCollapsesEqualValues | src/Argvs/Argvs.php:328-334 | with deduplication, any number of equal values under one key is a scalar |
| ArgvsProperties.LookupShape | src/Argvs/Argvs.php:321-341 | without deduplication the answer is null, scalar or list for zero, one or two or more entries, and it carries their values in order |
| Scenarios.NormalArguments | tests/ArgvsTests/ArgvsTest.php:14-29 | (also lines 57-76) three dashed pairs yield the script, three entries in order, and each value under its dashed and bare key |
| Scenarios.RemoveThenAddBack | tests/ArgvsTests/ArgvsTest.php:31-55 | removing a key stored once succeeds, drops one entry and reads null; adding it back reads the value under every dash form |
| Scenarios.DuplicateLookups | tests/ArgvsTests/ArgvsTest.php:78-117 | two values under one key give the ordered list, and with deduplication two equal values give the scalar |
| Scenarios.DuplicateKeys | tests/ArgvsTests/ArgvsTest.php:78-117 | the same through `getInstance` on `[script, --f=b, --n=j1, --n=j2]` |
| Scenarios.HelpAndVerboseAnywhere | tests/ArgvsTests/ArgvsTest.php:119-225 | a bare word next to a pair sets help (verbose) exactly when it is a help (verbose) word, before or after the pair |
| Scenarios.NoHelpWithoutWord | tests/ArgvsTests/ArgvsTest.php:148-170 | a lone pair sets neither switch and is read back by its dashed key |
| Scenarios.FirstCallFlags | tests/ArgvsTests/ArgvsTest.php:227-235 | a first `getInstance` over three bare tokens holds their normal forms, each twice |
| Scenarios.RemoveThreeFlags | tests/ArgvsTests/ArgvsTest.php:248-260 | after removing three flags by bare name, no dash form of any of them is found |
| Scenarios.FlagFunctions | tests/ArgvsTests/ArgvsTest.php:227-261 | every dash form of each parsed flag is found and nothing else is; after the removals none is |

## Left out

- PHP's loose comparisons are not modelled. `in_array` without strict mode and
  `array_key_exists` on keys PHP turns into integers (`"1"` and `1`) compare by
  type juggling. The model compares strings exactly.
- `unset` leaves holes in PHP array indices. Only the order of the surviving
  elements is modelled, and no operation of the class depends on the indices.
- The string cache key `key|Argvs|0` / `key|Argvs|1` is modelled as the pair
  (key, mode). Every cache string is the normalised key followed by a suffix of
  exactly 8 characters, so equal strings have equal keys and modes, and a
  string containing `|` never becomes an integer array key. The pair loses
  nothing; only the string building is not modelled.
- Arguments of other types are not modelled. The model gives every argument a
  string or boolean type, and counts are integers. `getArg` with a
  `uniqueValues` that is neither `true` nor `false` and `clear` with a
  non-integer `$num` are left out.
- The static `$_instance` is replaced by an explicit optional store passed to
  `GetInstance`, and the returned `$this` of chaining methods by the new store.
- `getArgs`, `getScript`, `hasHelp` and `hasVerbose` only read a field. They
  are the fields `entries`, `script`, `help` and `verbose` of `Store`.
- src/Argvs/ArgvInterface.php declares the public methods and no behaviour.
  It is not part of this model.
- The test at line 51 of tests/ArgvsTests/ArgvsTest.php counts a copy of the
  entries taken before the removal. It says nothing about the store and has no
  scenario.
- Scenarios.FlagFunctions states the flag test for a first `getInstance`.
  testFlagFunctions is declared after tests that already call `getInstance`,
  so there an instance exists and `clear` keeps their flags;
  `GetInstanceKeepsEarlierFlags` covers that case.

=== FILE: argvs.dfy ===
/**
 * The argument store of `Argvs` (src/Argvs/Argvs.php) as an immutable value,
 * with every public and parsing operation as a pure function from store to
 * store. The memoisation of `getArg` is modelled faithfully, so that the
 * contracts can state when a cached answer is still the answer a fresh scan
 * of the entries would give.
 */
module Argvs {
  import opened Wrappers
  import opened Dashes
  import opened Tokens
  import opened Lookup

  /** A cache slot: normalised key and `uniqueValues` (the source spells it `key|Argvs|0/1`). */
  type CacheKey = (string, bool)

  datatype Store = Store(
    script: Option<string>,             // getScript()
    entries: seq<Entry>,                // getArgs(), `$args`
    flags: seq<string>,                 // `$flags`
    cache: map<CacheKey, ArgValue>,     // `$tmp`
    help: bool,                         // hasHelp()
    verbose: bool,                      // hasVerbose()
    stripDashes: bool)

  /** `$flagPotentials['help']` and `$flagPotentials['verbose']`. */
  const HelpWords: seq<string> := ["help", "--help", "-help"]
  const VerboseWords: seq<string> := ["verbose", "-verbose", "--verbose", "-v", "--v"]

  /** The property defaults, before any constructor body runs. */
  function Default(): (r: Store)
    ensures Valid(r)
    ensures r.script.None? && r.entries == [] && r.flags == [] && r.cache == map[]
    ensures !r.help && !r.verbose && r.stripDashes
  {
    Store(None, [], [], map[], false, false, true)
  }

  /** A key or flag as the store compares it under the given mode. */
  function Normalize(strip: bool, key: string): (k: string)
    ensures strip ==> !StartsWithDash(k)
    ensures !StartsWithDash(key) ==> k == key
  {
    if strip then StripDashes(key) else key
  }

  /** The two modes of the normalising step: off keeps the key as written; on removes
      a run of leading dashes and nothing else (with `Normalize`'s own clauses and
      `StripDashesUnique` this is exactly `ltrim($key, '-')`). */
  lemma NormalizeModes(strip: bool, key: string)
    ensures !strip ==> Normalize(strip, key) == key
    ensures strip ==> var k := Normalize(strip, key);
      |k| <= |key| && k == key[|key| - |k|..] && forall i :: 0 <= i < |key| - |k| ==> key[i] == '-'
  {
  }

  /** Every cached answer is what a fresh scan of the current entries gives. */
  ghost predicate CacheConsistent(s: Store) {
    forall ck :: ck in s.cache ==> s.cache[ck] == Fresh(s.entries, ck.0, ck.1)
  }

  /** Stored keys carry no leading dash while the store strips dashes. */
  predicate KeysNormalized(s: Store) {
    s.stripDashes ==> forall i :: 0 <= i < |s.entries| ==> !StartsWithDash(s.entries[i].key)
  }

  ghost predicate Valid(s: Store) {
    CacheConsistent(s) && KeysNormalized(s)
  }

  // ---------------------------------------------------------------------------
  // Arguments

  /** `addArg` (lines 214-222): append one entry and drop the whole cache. */
  function AddArg(s: Store, key: string, value: string): (r: Store)
    ensures r.entries == s.entries + [Entry(Normalize(s.stripDashes, key), value)]
    ensures r.cache == map[]
    ensures r == s.(entries := r.entries, cache := r.cache)
    ensures Valid(s) ==> Valid(r)
  {
    s.(cache := map[], entries := s.entries + [Entry(Normalize(s.stripDashes, key), value)])
  }

  /** The entries with every one under `key` removed, the others in order. */
  function WithoutKey(entries: seq<Entry>, key: string): (kept: seq<Entry>)
    ensures !HasKey(kept, key)
    ensures forall k :: k != key ==> MatchValues(kept, k) == MatchValues(entries, k)
    ensures |kept| == |entries| - |MatchValues(entries, key)|
    ensures forall i :: 0 <= i < |kept| ==> kept[i] in entries
    decreases |entries|
  {
    if |entries| == 0 then []
    else
      var init := entries[..|entries| - 1];
      var e := entries[|entries| - 1];
      var kept := WithoutKey(init, key);
      if e.key == key then
        assert forall i :: 0 <= i < |init| ==> init[i] in entries;
        kept
      else
        assert (kept + [e])[..|kept|] == kept;
        assert forall i :: 0 <= i < |init| ==> init[i] in entries;
        kept + [e]
  }

  /** `removeArg` (lines 276-297): evict the key's two cache slots, drop its entries,
      and report whether there were any. */
  function RemoveArg(s: Store, key: string): (r: (Store, bool))
    ensures r.1 <==> HasKey(s.entries, Normalize(s.stripDashes, key))
    ensures !HasKey(r.0.entries, Normalize(s.stripDashes, key))
    ensures forall k :: k != Normalize(s.stripDashes, key) ==>
              MatchValues(r.0.entries, k) == MatchValues(s.entries, k)
    ensures r.0.entries == WithoutKey(s.entries, Normalize(s.stripDashes, key))
    ensures r.0.cache == s.cache - {(Normalize(s.stripDashes, key), false), (Normalize(s.stripDashes, key), true)}
    ensures r.0 == s.(entries := r.0.entries, cache := r.0.cache)
    ensures Valid(s) ==> Valid(r.0)
  {
    var k := Normalize(s.stripDashes, key);
    var kept := WithoutKey(s.entries, k);
    MatchValuesEmpty(s.entries, k);
    var cache := s.cache - {(k, false), (k, true)};
    assert forall ck :: ck in cache ==> ck.0 != k && ck in s.cache by {
      forall ck | ck in cache ensures ck.0 != k && ck in s.cache {
        assert ck in s.cache && ck !in {(k, false), (k, true)};
        if ck.1 { assert ck == (ck.0, true); } else { assert ck == (ck.0, false); }
      }
    }
    (s.(cache := cache, entries := kept), |kept| < |s.entries|)
  }

  /** `getArg` (lines 308-342): answer from the cache slot, or scan and fill it. */
  function GetArg(s: Store, key: string, unique: bool): (r: (Store, ArgValue))
    ensures Valid(s) ==> Valid(r.0) && r.1 == Fresh(s.entries, Normalize(s.stripDashes, key), unique)
    ensures r.0 == s.(cache := r.0.cache)
    ensures (Normalize(s.stripDashes, key), unique) in r.0.cache
    ensures r.0.cache[(Normalize(s.stripDashes, key), unique)] == r.1
    ensures forall ck :: ck in s.cache ==> ck in r.0.cache && r.0.cache[ck] == s.cache[ck]
  {
    var ck := (Normalize(s.stripDashes, key), unique);
    if ck in s.cache then (s, s.cache[ck])
    else
      var v := Fresh(s.entries, ck.0, unique);
      (s.(cache := s.cache[ck := v]), v)
  }

  // ---------------------------------------------------------------------------
  // Flags

  /** `addFlag` (lines 117-121): append verbatim, without normalising. */
  function AddFlag(s: Store, flag: string): (r: Store)
    ensures r.flags == s.flags + [flag]
    ensures r == s.(flags := r.flags)
    ensures Valid(s) ==> Valid(r)
  {
    s.(flags := s.flags + [flag])
  }

  /** `hasFlag` (lines 129-135). */
  function HasFlag(s: Store, flag: string): (found: bool)
    ensures s.stripDashes ==>
              (found <==> exists i :: 0 <= i < |s.flags| && s.flags[i] == StripDashes(flag))
    ensures !s.stripDashes ==>
              (found <==> exists i :: 0 <= i < |s.flags| && s.flags[i] == flag)
  {
    Normalize(s.stripDashes, flag) in s.flags
  }

  /** The flags with every copy of `a` and of `b` removed, the others in order. */
  function DropAll(xs: seq<string>, a: string, b: string): (r: seq<string>)
    ensures forall x :: multiset(r)[x] == if x == a || x == b then 0 else multiset(xs)[x]
    decreases |xs|
  {
    if |xs| == 0 then []
    else
      var init := xs[..|xs| - 1];
      var x := xs[|xs| - 1];
      assert xs == init + [x];
      var kept := DropAll(init, a, b);
      if x == a || x == b then kept else kept + [x]
  }

  /** `removeFlag` (lines 143-156): drop the flag as given and, when stripping, its
      normal form too. */
  function RemoveFlag(s: Store, flag: string): (r: Store)
    ensures !HasFlag(r, flag) && flag !in r.flags
    ensures forall f :: f != flag && f != Normalize(s.stripDashes, flag) ==>
              multiset(r.flags)[f] == multiset(s.flags)[f]
    ensures r == s.(flags := r.flags)
    ensures Valid(s) ==> Valid(r)
  {
    var kept := DropAll(s.flags, flag, Normalize(s.stripDashes, flag));
    assert multiset(kept)[flag] == 0;
    assert multiset(kept)[Normalize(s.stripDashes, flag)] == 0;
    s.(flags := kept)
  }

  // ---------------------------------------------------------------------------
  // Parsing

  /** One iteration of the loop in `processArguments` (lines 171-190). */
  function Step(s: Store, tok: string): (r: Store)
    ensures r.script == s.script && r.stripDashes == s.stripDashes
    ensures Valid(s) ==> Valid(r)
  {
    match Classify(tok)
    case Bare(name) =>
      s.(help := s.help || name in HelpWords,
         verbose := s.verbose || name in VerboseWords,
         flags := s.flags + [Normalize(s.stripDashes, name)])
    case Pair(k, v) => AddArg(s, k, v)
    case Malformed => s
  }

  /** The loop of `processArguments` over the tokens after the script. */
  function ParseTokens(s: Store, toks: seq<string>): (r: Store)
    ensures r.script == s.script && r.stripDashes == s.stripDashes
    ensures Valid(s) ==> Valid(r)
    decreases |toks|
  {
    if |toks| == 0 then s
    else Step(ParseTokens(s, toks[..|toks| - 1]), toks[|toks| - 1])
  }

  /** The tokens after the script name. */
  function Options(args: seq<string>): (opts: seq<string>)
    ensures |args| > 0 ==> [args[0]] + opts == args
    ensures |args| == 0 ==> opts == []
  {
    if |args| > 0 then args[1..] else []
  }

  /** `processArguments` (lines 164-192): take the script, parse the rest, return
      the entry count. */
  function ProcessArguments(s: Store, args: seq<string>): (r: (Store, nat))
    ensures r.0.script == (if |args| > 0 then Some(args[0]) else s.script)
    ensures r.0.stripDashes == s.stripDashes
    ensures r.1 == |r.0.entries|
    ensures Valid(s) ==> Valid(r.0)
  {
    var s1 := if |args| > 0 then s.(script := Some(args[0])) else s;
    var s2 := ParseTokens(s1, Options(args));
    (s2, |s2.entries|)
  }

  /** `is_array($args) && count($args) === $num`. */
  predicate CountMatches(args: Option<seq<string>>, num: Option<int>): (ok: bool)
    ensures args.None? || num.None? ==> !ok
    ensures num.Some? && num.value < 0 ==> !ok
    ensures args.Some? && num == Some(|args.value|) ==> ok
    ensures ok ==> args.Some? && num == Some(|args.value|)
  {
    args.Some? && num.Some? && |args.value| == num.value
  }

  /** The constructor (lines 103-109): the mode is only taken over when the count matches. */
  function Construct(args: Option<seq<string>>, num: Option<int>, strip: bool): (r: Store)
    ensures Valid(r)
    ensures !CountMatches(args, num) ==> r == Default()
    ensures CountMatches(args, num) ==> r.stripDashes == strip
    ensures r.script == (if CountMatches(args, num) && |args.value| > 0 then Some(args.value[0]) else None)
  {
    if CountMatches(args, num) then ProcessArguments(Default().(stripDashes := strip), args.value).0
    else Default()
  }

  /** `clear` (lines 351-362): reset everything except the flags, then parse when
      the count matches. */
  function Clear(s: Store, args: Option<seq<string>>, num: Option<int>, strip: bool): (r: Store)
    ensures Valid(r)
    ensures r.stripDashes == strip
    ensures r.script == (if CountMatches(args, num) && |args.value| > 0 then Some(args.value[0]) else None)
    ensures !CountMatches(args, num) ==>
              r == Store(None, [], s.flags, map[], false, false, strip)
  {
    var reset := Store(None, [], s.flags, map[], false, false, strip);
    if CountMatches(args, num) then ProcessArguments(reset, args.value).0 else reset
  }

  /** `getInstance` (lines 377-386) over an explicit optional instance instead of a
      static field: create when absent, then clear and reparse when both `args`
      and `num` are given. */
  function GetInstance(inst: Option<Store>, args: Option<seq<string>>, num: Option<int>, strip: bool): (r: Store)
    ensures (inst.None? || Valid(inst.value)) ==> Valid(r)
    ensures args.Some? && num.Some? ==> r.stripDashes == strip
    ensures (args.None? || num.None?) && inst.Some? ==> r == inst.value
    ensures (args.None? || num.None?) && inst.None? ==> r == Default()
  {
    var s := if inst.Some? then inst.value else Construct(args, num, strip);
    if args.Some? && num.Some? then Clear(s, args, num, strip) else s
  }
}

=== FILE: argvs_properties.dfy ===
/**
 * What the store promises across operations: the parse partition, the
 * freshness of the lookup cache after every mutation, removal, dash
 * normalisation of lookups and flags, and the lifecycle of `clear` and
 * `getInstance`.
 */
module ArgvsProperties {
  import opened Wrappers
  import opened Dashes
  import opened Tokens
  import opened Lookup
  import opened Argvs

  // ---------------------------------------------------------------------------
  // Reference definitions of what parsing keeps

  /** The entry a single token contributes: one for a `key=value` token, none otherwise. */
  function PairEntry(tok: string, strip: bool): seq<Entry> {
    match Classify(tok)
    case Pair(k, v) => [Entry(Normalize(strip, k), v)]
    case _ => []
  }

  /** The flag a single token contributes: one for a token without `=`, none otherwise. */
  function BareFlag(tok: string, strip: bool): seq<string> {
    match Classify(tok)
    case Bare(name) => [Normalize(strip, name)]
    case _ => []
  }

  /** The entries of all tokens, in token order. */
  function ParsedEntries(toks: seq<string>, strip: bool): seq<Entry>
    decreases |toks|
  {
    if |toks| == 0 then []
    else ParsedEntries(toks[..|toks| - 1], strip) + PairEntry(toks[|toks| - 1], strip)
  }

  /** The flags of all tokens, in token order. */
  function ParsedFlags(toks: seq<string>, strip: bool): seq<string>
    decreases |toks|
  {
    if |toks| == 0 then []
    else ParsedFlags(toks[..|toks| - 1], strip) + BareFlag(toks[|toks| - 1], strip)
  }

  /** Some raw token, before any stripping, is one of `words`. */
  ghost predicate Mentions(toks: seq<string>, words: seq<string>) {
    exists i :: 0 <= i < |toks| && '=' !in toks[i] && toks[i] in words
  }

  /** A word is mentioned by the tokens exactly when it is by all but the last, or by the last. */
  lemma MentionsLast(toks: seq<string>, words: seq<string>)
    requires |toks| > 0
    ensures var n := |toks| - 1;
      Mentions(toks, words) <==> Mentions(toks[..n], words) || ('=' !in toks[n] && toks[n] in words)
  {
    var n := |toks| - 1;
    var init := toks[..n];
    if Mentions(init, words) {
      var i :| 0 <= i < n && '=' !in init[i] && init[i] in words;
      assert toks[i] == init[i];
    }
    if Mentions(toks, words) {
      var i :| 0 <= i < |toks| && '=' !in toks[i] && toks[i] in words;
      if i < n {
        assert init[i] == toks[i];
      }
    }
  }

  /** What one loop iteration does, in terms of the per-token contributions. */
  lemma StepEffect(m: Store, t: string)
    ensures var r := Step(m, t);
      && r.entries == m.entries + PairEntry(t, m.stripDashes)
      && r.flags == m.flags + BareFlag(t, m.stripDashes)
      && (r.help <==> m.help || ('=' !in t && t in HelpWords))
      && (r.verbose <==> m.verbose || ('=' !in t && t in VerboseWords))
      && r.cache == (if PairEntry(t, m.stripDashes) == [] then m.cache else map[])
  {
  }

  /** Parsing one more token appends exactly that token's contribution. */
  lemma ParsedSnoc(toks: seq<string>, t: string, strip: bool)
    ensures ParsedEntries(toks + [t], strip) == ParsedEntries(toks, strip) + PairEntry(t, strip)
    ensures ParsedFlags(toks + [t], strip) == ParsedFlags(toks, strip) + BareFlag(t, strip)
  {
    ParsedEntriesSnoc(toks, t, strip);
    ParsedFlagsSnoc(toks, t, strip);
  }

  lemma ParsedEntriesSnoc(toks: seq<string>, t: string, strip: bool)
    ensures ParsedEntries(toks + [t], strip) == ParsedEntries(toks, strip) + PairEntry(t, strip)
  {
    assert (toks + [t])[..|toks|] == toks;
  }

  lemma ParsedFlagsSnoc(toks: seq<string>, t: string, strip: bool)
    ensures ParsedFlags(toks + [t], strip) == ParsedFlags(toks, strip) + BareFlag(t, strip)
  {
    assert (toks + [t])[..|toks|] == toks;
  }

  lemma ParsedSingleton(t: string, strip: bool)
    ensures ParsedEntries([t], strip) == PairEntry(t, strip)
    ensures ParsedFlags([t], strip) == BareFlag(t, strip)
  {
    assert [t][..0] == [];
  }

  /** The loop appends one entry per `key=value` token, in token order, and empties
      the cache as soon as one is added. */
  lemma {:induction false} ParseKeepsPairs(s: Store, toks: seq<string>)
    ensures var r := ParseTokens(s, toks);
      && r.entries == s.entries + ParsedEntries(toks, s.stripDashes)
      && r.cache == (if ParsedEntries(toks, s.stripDashes) == [] then s.cache else map[])
    decreases |toks|
  {
    if |toks| > 0 {
      var init := toks[..|toks| - 1];
      var t := toks[|toks| - 1];
      ParseKeepsPairs(s, init);
      var m := ParseTokens(s, init);
      StepEffect(m, t);
    }
  }

  /** The loop appends one flag per bare token, in token order. */
  lemma {:induction false} ParseKeepsFlags(s: Store, toks: seq<string>)
    ensures ParseTokens(s, toks).flags == s.flags + ParsedFlags(toks, s.stripDashes)
    decreases |toks|
  {
    if |toks| > 0 {
      var init := toks[..|toks| - 1];
      var t := toks[|toks| - 1];
      ParseKeepsFlags(s, init);
      var m := ParseTokens(s, init);
      StepEffect(m, t);
    }
  }

  /** Help and verbose become true exactly when a raw bare token is one of their
      words, wherever it stands. */
  lemma {:induction false} ParseFindsWords(s: Store, toks: seq<string>)
    ensures var r := ParseTokens(s, toks);
      && (r.help <==> s.help || Mentions(toks, HelpWords))
      && (r.verbose <==> s.verbose || Mentions(toks, VerboseWords))
    decreases |toks|
  {
    if |toks| > 0 {
      var init := toks[..|toks| - 1];
      var t := toks[|toks| - 1];
      ParseFindsWords(s, init);
      MentionsLast(toks, HelpWords);
      MentionsLast(toks, VerboseWords);
      var m := ParseTokens(s, init);
      StepEffect(m, t);
    } else {
      assert !Mentions(toks, HelpWords) && !Mentions(toks, VerboseWords);
    }
  }

  /**
   * The parse partition: over any tokens, the loop appends one entry per
   * `key=value` token and one flag per bare token, in token order; tokens with
   * two or more `=` leave no trace; help and verbose become true exactly when a
   * raw bare token is one of their words, wherever it stands; the cache is
   * emptied as soon as one entry is added.
   */
  lemma ParsePartition(s: Store, toks: seq<string>)
    ensures var r := ParseTokens(s, toks);
      && r.entries == s.entries + ParsedEntries(toks, s.stripDashes)
      && r.flags == s.flags + ParsedFlags(toks, s.stripDashes)
      && (r.help <==> s.help || Mentions(toks, HelpWords))
      && (r.verbose <==> s.verbose || Mentions(toks, VerboseWords))
      && r.cache == (if ParsedEntries(toks, s.stripDashes) == [] then s.cache else map[])
  {
    ParseKeepsPairs(s, toks);
    ParseKeepsFlags(s, toks);
    ParseFindsWords(s, toks);
  }

  /** `processArguments` returns the number of `key=value` tokens after the script
      (from an empty store, the only way the source calls it). */
  lemma ProcessArgumentsCount(s: Store, args: seq<string>)
    requires s.entries == []
    ensures ProcessArguments(s, args).1 == |ParsedEntries(Options(args), s.stripDashes)|
    ensures ProcessArguments(s, args).0.entries == ParsedEntries(Options(args), s.stripDashes)
  {
    var s1 := if |args| > 0 then s.(script := Some(args[0])) else s;
    ParsePartition(s1, Options(args));
  }

  // ---------------------------------------------------------------------------
  // Lifecycle

  /** A constructor call whose count matches holds exactly what the tokens say. */
  lemma ConstructParses(args: seq<string>, strip: bool)
    ensures var r := Construct(Some(args), Some(|args|), strip);
      && r.entries == ParsedEntries(Options(args), strip)
      && r.flags == ParsedFlags(Options(args), strip)
      && (r.help <==> Mentions(Options(args), HelpWords))
      && (r.verbose <==> Mentions(Options(args), VerboseWords))
      && r.stripDashes == strip
  {
    var d := Default().(stripDashes := strip);
    var s1 := if |args| > 0 then d.(script := Some(args[0])) else d;
    ParsePartition(s1, Options(args));
  }

  /** A count mismatch leaves nothing parsed and the mode at its default, whatever
      mode was asked for. */
  lemma ConstructMismatch(args: seq<string>, num: int, strip: bool)
    requires |args| != num
    ensures var r := Construct(Some(args), Some(num), strip);
      r.entries == [] && r.script == None && r.flags == [] && r.stripDashes
  {
  }

  /** `clear` resets entries, cache, script, help and verbose, keeps the old flags
      in front, and appends what the new tokens contribute. */
  lemma ClearParses(s: Store, args: seq<string>, strip: bool)
    ensures var r := Clear(s, Some(args), Some(|args|), strip);
      && r.entries == ParsedEntries(Options(args), strip)
      && r.flags == s.flags + ParsedFlags(Options(args), strip)
      && (r.help <==> Mentions(Options(args), HelpWords))
      && (r.verbose <==> Mentions(Options(args), VerboseWords))
      && r.script == (if |args| > 0 then Some(args[0]) else None)
  {
    var reset := Store(None, [], s.flags, map[], false, false, strip);
    var s1 := if |args| > 0 then reset.(script := Some(args[0])) else reset;
    ParsePartition(s1, Options(args));
  }

  /** The first `getInstance` call with matching arguments constructs and then clears,
      so it parses twice: the entries appear once but every flag twice. */
  lemma GetInstanceFirstCallParsesTwice(args: seq<string>, strip: bool)
    ensures var r := GetInstance(None, Some(args), Some(|args|), strip);
      && r.entries == ParsedEntries(Options(args), strip)
      && r.flags == ParsedFlags(Options(args), strip) + ParsedFlags(Options(args), strip)
      && (r.help <==> Mentions(Options(args), HelpWords))
      && r.script == (if |args| > 0 then Some(args[0]) else None)
  {
    var c := Construct(Some(args), Some(|args|), strip);
    ConstructParses(args, strip);
    ClearParses(c, args, strip);
  }

  /** Whatever instance exists, a `getInstance` call with a matching count leaves a
      consistent store holding exactly the parsed entries, script and help/verbose. */
  lemma GetInstanceParses(inst: Option<Store>, args: seq<string>, strip: bool)
    ensures var r := GetInstance(inst, Some(args), Some(|args|), strip);
      && Valid(r)
      && r.entries == ParsedEntries(Options(args), strip)
      && (forall f :: f in ParsedFlags(Options(args), strip) ==> f in r.flags)
      && (r.help <==> Mentions(Options(args), HelpWords))
      && (r.verbose <==> Mentions(Options(args), VerboseWords))
      && r.script == (if |args| > 0 then Some(args[0]) else None)
      && r.stripDashes == strip
  {
    var s := if inst.Some? then inst.value else Construct(Some(args), Some(|args|), strip);
    ClearParses(s, args, strip);
  }

  /** A count that does not match the list (or a missing list or count) parses
      nothing: no script, no entries, every lookup null, help and verbose off. */
  lemma GetInstanceCountMismatch(inst: Option<Store>, args: Option<seq<string>>, num: Option<int>,
                                 strip: bool, key: string, unique: bool)
    requires inst.None? || Valid(inst.value)
    requires !CountMatches(args, num)
    ensures var r := GetInstance(inst, args, num, strip);
      && r.script == (if inst.Some? && (args.None? || num.None?) then inst.value.script else None)
      && (inst.None? || (args.Some? && num.Some?) ==> r.entries == [] && !r.help && !r.verbose)
      && (inst.None? || (args.Some? && num.Some?) ==> GetArg(r, key, unique).1 == Null)
  {
    var r := GetInstance(inst, args, num, strip);
    if inst.None? || (args.Some? && num.Some?) {
      FreshNull(r.entries, Normalize(r.stripDashes, key), unique);
    }
  }

  /** A later `getInstance` with arguments is a `clear` of the existing instance: the
      flags of earlier argument lists survive it. */
  lemma GetInstanceKeepsEarlierFlags(s: Store, args: seq<string>, num: int, strip: bool)
    ensures var r := GetInstance(Some(s), Some(args), Some(num), strip);
      && |r.flags| >= |s.flags| && r.flags[..|s.flags|] == s.flags
      && (forall f :: f in s.flags ==> f in r.flags)
  {
    var r := GetInstance(Some(s), Some(args), Some(num), strip);
    if |args| == num {
      ClearParses(s, args, strip);
    }
    assert r.flags[..|s.flags|] == s.flags;
    forall f | f in s.flags
      ensures f in r.flags
    {
      var i :| 0 <= i < |s.flags| && s.flags[i] == f;
      assert r.flags[i] == f;
    }
  }

  // ---------------------------------------------------------------------------
  // The lookup cache is never stale

  /** A second identical `getArg` is served from the cache, unchanged. */
  lemma GetArgIdempotent(s: Store, key: string, unique: bool)
    ensures var (s1, v1) := GetArg(s, key, unique);
      GetArg(s1, key, unique) == (s1, v1)
  {
  }

  /** After `addArg`, every lookup is a fresh scan that sees the new entry last. */
  lemma GetArgAfterAddArg(s: Store, key: string, value: string, other: string, unique: bool)
    requires Valid(s)
    ensures var a := AddArg(s, key, value);
      && GetArg(a, other, unique).1 == Fresh(s.entries + [Entry(Normalize(s.stripDashes, key), value)],
                                            Normalize(s.stripDashes, other), unique)
      && GetArg(a, key, false).1 ==
           Shape(MatchValues(s.entries, Normalize(s.stripDashes, key)) + [value])
  {
    var k := Normalize(s.stripDashes, key);
    MatchValuesAppend(s.entries, [Entry(k, value)], k);
    assert [Entry(k, value)][..0] == [];
  }

  /** Adding a key that was absent makes it read back as that one value in both modes. */
  lemma AddArgRoundTrip(s: Store, key: string, value: string, unique: bool)
    requires Valid(s)
    requires !HasKey(s.entries, Normalize(s.stripDashes, key))
    ensures GetArg(AddArg(s, key, value), key, unique).1 == Scalar(value)
  {
    var k := Normalize(s.stripDashes, key);
    MatchValuesEmpty(s.entries, k);
    MatchValuesAppend(s.entries, [Entry(k, value)], k);
    assert [Entry(k, value)][..0] == [];
    assert Dedup([value]) == [value] by {
      assert [value][..0] == [];
    }
  }

  /** After `removeArg`, the key reads back as null, a second removal finds nothing,
      and every other key's lookup is what it was. */
  lemma RemoveArgThenLookup(s: Store, key: string, other: string, unique: bool)
    requires Valid(s)
    requires Normalize(s.stripDashes, other) != Normalize(s.stripDashes, key)
    ensures var r := RemoveArg(s, key).0;
      && GetArg(r, key, unique).1 == Null
      && !RemoveArg(r, key).1
      && GetArg(r, other, unique).1 == GetArg(s, other, unique).1
  {
    var r := RemoveArg(s, key).0;
    FreshNull(r.entries, Normalize(s.stripDashes, key), unique);
  }

  /** `removeArg` drops exactly the entries under the key. */
  lemma RemoveArgCount(s: Store, key: string)
    ensures var k := Normalize(s.stripDashes, key);
      |RemoveArg(s, key).0.entries| ==
        |s.entries| - |set i | 0 <= i < |s.entries| && s.entries[i].key == k|
  {
    MatchValuesCountsEntries(s.entries, Normalize(s.stripDashes, key));
  }

  /** Removal keeps the surviving entries in their original order. */
  lemma {:induction false} WithoutKeyAppend(a: seq<Entry>, b: seq<Entry>, key: string)
    ensures WithoutKey(a + b, key) == WithoutKey(a, key) + WithoutKey(b, key)
    decreases |b|
  {
    if |b| == 0 {
      assert a + b == a;
    } else {
      var b' := b[..|b| - 1];
      assert (a + b)[..|a + b| - 1] == a + b';
      WithoutKeyAppend(a, b', key);
    }
  }

  /** Entries under other keys are kept as they are. */
  lemma {:induction false} WithoutAbsentKey(entries: seq<Entry>, key: string)
    requires !HasKey(entries, key)
    ensures WithoutKey(entries, key) == entries
    decreases |entries|
  {
    if |entries| > 0 {
      var init := entries[..|entries| - 1];
      assert forall i :: 0 <= i < |init| ==> init[i] == entries[i];
      WithoutAbsentKey(init, key);
      assert entries == init + [entries[|entries| - 1]];
    }
  }

  // ---------------------------------------------------------------------------
  // Dash normalisation of lookups and flags

  /** With stripping on, `--foo`, `-foo` and `foo` name the same argument and flag. */
  lemma DashedKeysAgree(s: Store, k: string, unique: bool)
    requires s.stripDashes
    ensures GetArg(s, "--" + k, unique) == GetArg(s, k, unique)
    ensures GetArg(s, "-" + k, unique) == GetArg(s, k, unique)
    ensures RemoveArg(s, "--" + k) == RemoveArg(s, k)
    ensures RemoveArg(s, "-" + k) == RemoveArg(s, k)
    ensures HasFlag(s, "--" + k) == HasFlag(s, "-" + k) == HasFlag(s, k)
  {
    DashedFormsAgree(k);
    SameNormalForm(s, "--" + k, k, unique);
    SameNormalForm(s, "-" + k, k, unique);
  }

  /** Keys with one normal form are indistinguishable to lookup, removal and flags. */
  lemma SameNormalForm(s: Store, a: string, b: string, unique: bool)
    requires Normalize(s.stripDashes, a) == Normalize(s.stripDashes, b)
    ensures GetArg(s, a, unique) == GetArg(s, b, unique)
    ensures RemoveArg(s, a) == RemoveArg(s, b)
    ensures HasFlag(s, a) == HasFlag(s, b)
  {
  }

  /** `addFlag` stores the flag verbatim: with stripping off it is found again,
      with stripping on a dashed flag is looked up by its normal form and missed
      unless that normal form was already stored. */
  lemma AddFlagVerbatim(s: Store, flag: string)
    ensures !s.stripDashes ==> HasFlag(AddFlag(s, flag), flag)
    ensures s.stripDashes && !StartsWithDash(flag) ==> HasFlag(AddFlag(s, flag), flag)
    ensures s.stripDashes && StartsWithDash(flag) && !HasFlag(s, flag) ==>
              !HasFlag(AddFlag(s, flag), flag)
  {
  }

  /** With stripping on, a valid store holds every key in normal form, so each
      stored key is found again when looked up as written. */
  lemma StoredKeysFound(s: Store, i: int, unique: bool)
    requires Valid(s) && s.stripDashes
    requires 0 <= i < |s.entries|
    ensures Normalize(true, s.entries[i].key) == s.entries[i].key
    ensures GetArg(s, s.entries[i].key, unique).1 != Null
  {
    var k := s.entries[i].key;
    StripDashesIdentity(k);
    FreshNull(s.entries, k, unique);
  }

  /** `removeFlag` leaves every flag that is neither the given nor its normal form. */
  lemma RemoveFlagKeepsOthers(s: Store, flag: string, g: string)
    requires Normalize(s.stripDashes, g) != flag
    requires Normalize(s.stripDashes, g) != Normalize(s.stripDashes, flag)
    ensures HasFlag(RemoveFlag(s, flag), g) <==> HasFlag(s, g)
  {
    var r := RemoveFlag(s, flag);
    var ng := Normalize(s.stripDashes, g);
    assert multiset(r.flags)[ng] == multiset(s.flags)[ng];
  }

  /** With deduplication, any number of equal values under one key is a scalar. */
  lemma UniqueCollapsesEqualValues(entries: seq<Entry>, key: string, v: string)
    requires HasKey(entries, key)
    requires forall i :: 0 <= i < |entries| && entries[i].key == key ==> entries[i].value == v
    ensures Fresh(entries, key, true) == Scalar(v)
  {
    var ms := MatchValues(entries, key);
    MatchValuesEmpty(entries, key);
    forall j | 0 <= j < |ms|
      ensures ms[j] == v
    {
      MatchValuesMembers(entries, key, ms[j]);
    }
    DedupAllEqual(ms, v);
  }

  /** Without deduplication a list comes back exactly when two or more entries match. */
  lemma LookupShape(entries: seq<Entry>, key: string)
    ensures var n := |set i | 0 <= i < |entries| && entries[i].key == key|;
      && (Fresh(entries, key, false).Null? <==> n == 0)
      && (Fresh(entries, key, false).Scalar? <==> n == 1)
      && (Fresh(entries, key, false).List? <==> n >= 2)
      && Values(Fresh(entries, key, false)) == MatchValues(entries, key)
  {
    MatchValuesCountsEntries(entries, key);
  }
}

=== FILE: dashes.dfy ===
/**
 * Leading-dash normalisation of keys and flags.
 *
 * The source strips with `ltrim($val, '-')`, which removes EVERY leading
 * dash, not only a leading `--` or `-` as its own comment suggests.
 */
module Dashes {

  predicate StartsWithDash(s: string) {
    |s| > 0 && s[0] == '-'
  }

  /** `ltrim($val, '-')`: the input with its whole run of leading dashes removed. */
  function StripDashes(s: string): (r: string)
    ensures |r| <= |s|
    ensures r == s[|s| - |r|..]
    ensures forall i :: 0 <= i < |s| - |r| ==> s[i] == '-'
    ensures !StartsWithDash(r)
    decreases |s|
  {
    if StartsWithDash(s) then StripDashes(s[1..]) else s
  }

  /** The characterisation in StripDashes' contract has exactly one solution. */
  lemma {:induction false} StripDashesUnique(s: string, n: nat)
    requires n <= |s|
    requires forall i :: 0 <= i < n ==> s[i] == '-'
    requires !StartsWithDash(s[n..])
    ensures StripDashes(s) == s[n..]
    decreases n
  {
    if n > 0 {
      assert s[1..][n - 1..] == s[n..];
      StripDashesUnique(s[1..], n - 1);
    }
  }

  /** A string that does not start with a dash is left alone. */
  lemma StripDashesIdentity(s: string)
    requires !StartsWithDash(s)
    ensures StripDashes(s) == s
  {
  }

  lemma StripDashesIdempotent(s: string)
    ensures StripDashes(StripDashes(s)) == StripDashes(s)
  {
    StripDashesIdentity(StripDashes(s));
  }

  /** Prefixing any number of dashes does not change the normal form. */
  lemma {:induction false} StripDashesAbsorbsDashes(d: string, s: string)
    requires forall i :: 0 <= i < |d| ==> d[i] == '-'
    ensures StripDashes(d + s) == StripDashes(s)
    decreases |d|
  {
    if |d| > 0 {
      assert StartsWithDash(d + s);
      assert (d + s)[1..] == d[1..] + s;
      StripDashesAbsorbsDashes(d[1..], s);
    } else {
      assert d + s == s;
    }
  }

  /** `--foo`, `-foo` and `foo` share one normal form. */
  lemma DashedFormsAgree(k: string)
    ensures StripDashes("--" + k) == StripDashes(k)
    ensures StripDashes("-" + k) == StripDashes(k)
  {
    var one := ['-'] + k;
    assert StartsWithDash(one) && one[1..] == k;
    var two := ['-'] + one;
    assert StartsWithDash(two) && two[1..] == one;
    assert "-" + k == one && "--" + k == two;
  }
}

=== FILE: lookup.dfy ===
/**
 * The stored arguments and what `getArg` computes from them on a cache miss
 * (Argvs.php lines 321-341): the values of every entry under the key, in
 * entry order, optionally with repeats dropped, shaped as null, a scalar or
 * a list.
 */
module Lookup {

  /** One `[$key => $value]` element of `$args`. */
  datatype Entry = Entry(key: string, value: string)

  /** The `string|array|null` that `getArg` returns. */
  datatype ArgValue = Null | Scalar(value: string) | List(values: seq<string>)

  /** The values an ArgValue carries, in order. */
  function Values(a: ArgValue): seq<string> {
    match a
    case Null => []
    case Scalar(v) => [v]
    case List(vs) => vs
  }

  /** Zero values are null, one value is a scalar, more are a list. */
  function Shape(ms: seq<string>): (r: ArgValue)
    ensures Values(r) == ms
    ensures r.List? ==> |ms| >= 2
  {
    if |ms| == 1 then Scalar(ms[0])
    else if |ms| > 1 then List(ms)
    else Null
  }

  /** The values of the entries stored under `key`, in entry order. */
  function MatchValues(entries: seq<Entry>, key: string): (vs: seq<string>)
    ensures |vs| <= |entries|
    decreases |entries|
  {
    if |entries| == 0 then []
    else
      var init := MatchValues(entries[..|entries| - 1], key);
      var e := entries[|entries| - 1];
      if e.key == key then init + [e.value] else init
  }

  predicate HasKey(entries: seq<Entry>, key: string) {
    exists i :: 0 <= i < |entries| && entries[i].key == key
  }

  predicate Distinct(vs: seq<string>) {
    forall i, j :: 0 <= i < j < |vs| ==> vs[i] != vs[j]
  }

  /** Position of the first occurrence of `x`. */
  function IndexOf(vs: seq<string>, x: string): (i: nat)
    requires x in vs
    ensures i < |vs| && vs[i] == x && x !in vs[..i]
  {
    if vs[0] == x then 0 else 1 + IndexOf(vs[1..], x)
  }

  /** First-occurrence deduplication, as the `!in_array($v, $matches)` test does it. */
  function Dedup(vs: seq<string>): (r: seq<string>)
    ensures Distinct(r)
    ensures forall x :: x in r <==> x in vs
    decreases |vs|
  {
    if |vs| == 0 then []
    else
      var d := Dedup(vs[..|vs| - 1]);
      var x := vs[|vs| - 1];
      assert vs == vs[..|vs| - 1] + [x];
      if x in d then d else d + [x]
  }

  /** What the loop collects into `$matches`. */
  function Collected(entries: seq<Entry>, key: string, unique: bool): seq<string> {
    if unique then Dedup(MatchValues(entries, key)) else MatchValues(entries, key)
  }

  /** A fresh lookup: the result `getArg` computes when nothing is cached. */
  function Fresh(entries: seq<Entry>, key: string, unique: bool): ArgValue {
    Shape(Collected(entries, key, unique))
  }

  /** The scan of `getArg` (lines 321-341) as the loop it is. */
  method ScanEntries(entries: seq<Entry>, key: string, unique: bool) returns (r: ArgValue)
    ensures r == Fresh(entries, key, unique)
  {
    var matches: seq<string> := [];
    var n := 0;
    while n < |entries|
      invariant 0 <= n <= |entries|
      invariant matches == Collected(entries[..n], key, unique)
    {
      var e := entries[n];
      assert entries[..n + 1][..n] == entries[..n];
      if e.key == key && (!unique || e.value !in matches) {
        matches := matches + [e.value];
      }
      n := n + 1;
    }
    assert entries[..n] == entries;
    if |matches| == 1 {
      r := Scalar(matches[0]);
    } else if |matches| > 1 {
      r := List(matches);
    } else {
      r := Null;
    }
  }

  // ---------------------------------------------------------------------------
  // Properties of the lookup

  /** `v` is collected exactly when some entry stores it under `key`. */
  lemma {:induction false} MatchValuesMembers(entries: seq<Entry>, key: string, v: string)
    ensures v in MatchValues(entries, key) <==>
            exists i :: 0 <= i < |entries| && entries[i] == Entry(key, v)
    decreases |entries|
  {
    if |entries| > 0 {
      var init := entries[..|entries| - 1];
      MatchValuesMembers(init, key, v);
      assert forall i :: 0 <= i < |init| ==> init[i] == entries[i];
    }
  }

  /** Collection distributes over concatenation: entry order is kept. */
  lemma {:induction false} MatchValuesAppend(a: seq<Entry>, b: seq<Entry>, key: string)
    ensures MatchValues(a + b, key) == MatchValues(a, key) + MatchValues(b, key)
    decreases |b|
  {
    if |b| == 0 {
      assert a + b == a;
    } else {
      var b' := b[..|b| - 1];
      assert (a + b)[..|a + b| - 1] == a + b';
      MatchValuesAppend(a, b', key);
    }
  }

  /** No matches exactly when no entry has the key. */
  lemma {:induction false} MatchValuesEmpty(entries: seq<Entry>, key: string)
    ensures MatchValues(entries, key) == [] <==> !HasKey(entries, key)
    decreases |entries|
  {
    if |entries| > 0 {
      var init := entries[..|entries| - 1];
      MatchValuesEmpty(init, key);
      if HasKey(init, key) {
        var i :| 0 <= i < |init| && init[i].key == key;
        assert entries[i].key == key;
      }
    }
  }

  /** The number of matches is the number of entries under the key. */
  lemma {:induction false} MatchValuesCountsEntries(entries: seq<Entry>, key: string)
    ensures |MatchValues(entries, key)| == |set i | 0 <= i < |entries| && entries[i].key == key|
    decreases |entries|
  {
    var idx := set i | 0 <= i < |entries| && entries[i].key == key;
    if |entries| > 0 {
      var n := |entries| - 1;
      var init := entries[..n];
      MatchValuesCountsEntries(init, key);
      var prev := set i | 0 <= i < |init| && init[i].key == key;
      assert forall i :: 0 <= i < n ==> init[i] == entries[i];
      if entries[n].key == key {
        assert idx == prev + {n};
      } else {
        assert idx == prev;
      }
    } else {
      assert idx == {};
    }
  }

  /** Values already distinct are left untouched by deduplication. */
  lemma {:induction false} DedupOfDistinct(vs: seq<string>)
    requires Distinct(vs)
    ensures Dedup(vs) == vs
    decreases |vs|
  {
    if |vs| > 0 {
      var init := vs[..|vs| - 1];
      DedupOfDistinct(init);
      assert vs[|vs| - 1] !in init;
      assert vs == init + [vs[|vs| - 1]];
    }
  }

  lemma IndexOfPrefix(vs: seq<string>, x: string, y: string)
    requires y in vs
    ensures IndexOf(vs + [x], y) == IndexOf(vs, y)
  {
    var i := IndexOf(vs, y);
    assert (vs + [x])[i] == y;
    assert (vs + [x])[..i] == vs[..i];
  }

  /** Deduplication keeps the values in order of their first occurrence. */
  lemma {:induction false} DedupFirstOccurrenceOrder(vs: seq<string>, i: nat, j: nat)
    requires i < j < |Dedup(vs)|
    ensures IndexOf(vs, Dedup(vs)[i]) < IndexOf(vs, Dedup(vs)[j])
    decreases |vs|
  {
    var init := vs[..|vs| - 1];
    var x := vs[|vs| - 1];
    var d := Dedup(init);
    assert vs == init + [x];
    var r := Dedup(vs);
    assert r[i] == d[i] && d[i] in init;
    IndexOfPrefix(init, x, d[i]);
    if j < |d| {
      assert r[j] == d[j] && d[j] in init;
      IndexOfPrefix(init, x, d[j]);
      DedupFirstOccurrenceOrder(init, i, j);
    } else {
      assert r[j] == x && x !in init;
    }
  }

  /** With deduplication, equal values under one key come back as one scalar. */
  lemma {:induction false} DedupAllEqual(vs: seq<string>, v: string)
    requires |vs| > 0
    requires forall i :: 0 <= i < |vs| ==> vs[i] == v
    ensures Dedup(vs) == [v]
    decreases |vs|
  {
    if |vs| > 1 {
      DedupAllEqual(vs[..|vs| - 1], v);
    } else {
      assert vs[..0] == [];
    }
  }

  /** A fresh lookup is null exactly when no entry carries the key. */
  lemma FreshNull(entries: seq<Entry>, key: string, unique: bool)
    ensures Fresh(entries, key, unique) == Null <==> !HasKey(entries, key)
  {
    MatchValuesEmpty(entries, key);
    var ms := MatchValues(entries, key);
    if unique && ms != [] {
      assert ms[0] in Dedup(ms);
    }
  }
}

=== FILE: scenarios.dfy ===
/**
 * The behaviour the repository's test suite (tests/ArgvsTests/ArgvsTest.php)
 * exercises, stated for every argument list of the same shape rather than
 * for the one literal list each test uses.
 */
module Scenarios {
  import opened Wrappers
  import opened Dashes
  import opened Tokens
  import opened Lookup
  import opened Argvs
  import opened ArgvsProperties

  /** A key or value as the tests write them: no `=`, no leading dash. */
  predicate Plain(k: string) {
    '=' !in k && !StartsWithDash(k)
  }

  /** The token `--k=v`. */
  function Dashed(k: string, v: string): string {
    "--" + k + "=" + v
  }

  lemma DashedEntry(k: string, v: string)
    requires Plain(k) && '=' !in v
    ensures PairEntry(Dashed(k, v), true) == [Entry(k, v)]
  {
    assert Dashed(k, v) == ("--" + k) + "=" + v;
    ClassifyPair("--" + k, v);
    DashedFormsAgree(k);
    StripDashesIdentity(k);
  }

  lemma BareEntry(f: string)
    requires '=' !in f
    ensures PairEntry(f, true) == []
    ensures BareFlag(f, true) == [StripDashes(f)]
  {
  }

  lemma ParsedTwo(a: string, b: string, strip: bool)
    ensures ParsedEntries([a, b], strip) == PairEntry(a, strip) + PairEntry(b, strip)
    ensures ParsedFlags([a, b], strip) == BareFlag(a, strip) + BareFlag(b, strip)
  {
    assert [a, b] == [a] + [b];
    ParsedSnoc([a], b, strip);
    ParsedSingleton(a, strip);
  }

  /** The entries of three tokens are their contributions in token order. */
  lemma ParsedThreeEntries(a: string, b: string, c: string, strip: bool)
    ensures ParsedEntries([a, b, c], strip) == PairEntry(a, strip) + PairEntry(b, strip) + PairEntry(c, strip)
  {
    assert [a, b, c] == [a, b] + [c];
    ParsedEntriesSnoc([a, b], c, strip);
    ParsedTwo(a, b, strip);
  }

  /** The flags of three tokens are their contributions in token order. */
  lemma ParsedThreeFlags(a: string, b: string, c: string, strip: bool)
    ensures ParsedFlags([a, b, c], strip) == BareFlag(a, strip) + BareFlag(b, strip) + BareFlag(c, strip)
  {
    assert [a, b, c] == [a, b] + [c];
    ParsedFlagsSnoc([a, b], c, strip);
    ParsedTwo(a, b, strip);
  }

  lemma MatchOne(e: Entry, key: string)
    ensures MatchValues([e], key) == if e.key == key then [e.value] else []
  {
    assert [e][..0] == [];
  }

  lemma MatchThree(e1: Entry, e2: Entry, e3: Entry, key: string)
    ensures MatchValues([e1, e2, e3], key) ==
      (if e1.key == key then [e1.value] else []) +
      (if e2.key == key then [e2.value] else []) +
      (if e3.key == key then [e3.value] else [])
  {
    assert [e1, e2, e3] == [e1] + [e2] + [e3];
    MatchValuesAppend([e1] + [e2], [e3], key);
    MatchValuesAppend([e1], [e2], key);
    MatchOne(e1, key);
    MatchOne(e2, key);
    MatchOne(e3, key);
  }

  /** The three ways the tests spell a key all reach the same lookup. */
  lemma LookupAnyDash(r: Store, k: string, unique: bool)
    requires Valid(r) && r.stripDashes && Plain(k)
    ensures GetArg(r, "--" + k, unique).1 == Fresh(r.entries, k, unique)
    ensures GetArg(r, "-" + k, unique).1 == Fresh(r.entries, k, unique)
    ensures GetArg(r, k, unique).1 == Fresh(r.entries, k, unique)
  {
    DashedFormsAgree(k);
    StripDashesIdentity(k);
  }

  lemma ThreeDashedParsed(a: string, x: string, b: string, y: string, c: string, z: string)
    requires Plain(a) && Plain(b) && Plain(c)
    requires '=' !in x && '=' !in y && '=' !in z
    ensures ParsedEntries([Dashed(a, x), Dashed(b, y), Dashed(c, z)], true) ==
            [Entry(a, x), Entry(b, y), Entry(c, z)]
  {
    DashedEntry(a, x);
    DashedEntry(b, y);
    DashedEntry(c, z);
    ParsedThreePairs(Dashed(a, x), Dashed(b, y), Dashed(c, z), Entry(a, x), Entry(b, y), Entry(c, z), true);
  }

  /** Cost helper: three pair tokens whose contributions are known, with the
      tokens abstracted so that the caller's proof stays small. */
  lemma ParsedThreePairs(t1: string, t2: string, t3: string, e1: Entry, e2: Entry, e3: Entry, strip: bool)
    requires PairEntry(t1, strip) == [e1] && PairEntry(t2, strip) == [e2] && PairEntry(t3, strip) == [e3]
    ensures ParsedEntries([t1, t2, t3], strip) == [e1, e2, e3]
  {
    ParsedThreeEntries(t1, t2, t3, strip);
    ThreeSingletons(PairEntry(t1, strip), PairEntry(t2, strip), PairEntry(t3, strip), e1, e2, e3);
  }

  /** Cost helper: the sequence fact of ParsedThreePairs, stated over plain
      sequences so that the solver does not unfold the token contributions. */
  lemma ThreeSingletons<T>(x1: seq<T>, x2: seq<T>, x3: seq<T>, e1: T, e2: T, e3: T)
    requires x1 == [e1] && x2 == [e2] && x3 == [e3]
    ensures x1 + x2 + x3 == [e1, e2, e3]
  {
  }

  /**
   * testNormal and testNormalRemoveLeadingDashes (lines 14-29, 57-76):
   * `[script, --a=x, --b=y, --c=z]` through `getInstance`, whatever instance
   * existed before, gives the script, three entries in token order, and each
   * value under the dashed and the bare key.
   */
  lemma NormalArguments(inst: Option<Store>, script: string,
                        a: string, x: string, b: string, y: string, c: string, z: string)
    requires Plain(a) && Plain(b) && Plain(c)
    requires '=' !in x && '=' !in y && '=' !in z
    requires a != b && b != c && a != c
    ensures var r := GetInstance(inst, Some([script, Dashed(a, x), Dashed(b, y), Dashed(c, z)]), Some(4), true);
      && r.script == Some(script)
      && r.entries == [Entry(a, x), Entry(b, y), Entry(c, z)]
      && GetArg(r, "--" + a, false).1 == Scalar(x)
      && GetArg(r, "-" + a, false).1 == Scalar(x)
      && GetArg(r, a, false).1 == Scalar(x)
      && GetArg(r, "--" + b, false).1 == Scalar(y)
      && GetArg(r, b, false).1 == Scalar(y)
      && GetArg(r, "--" + c, false).1 == Scalar(z)
      && GetArg(r, c, false).1 == Scalar(z)
  {
    var args := [script, Dashed(a, x), Dashed(b, y), Dashed(c, z)];
    var r := GetInstance(inst, Some(args), Some(4), true);
    GetInstanceParses(inst, args, true);
    assert Options(args) == [Dashed(a, x), Dashed(b, y), Dashed(c, z)];
    ThreeDashedParsed(a, x, b, y, c, z);
    MatchThree(Entry(a, x), Entry(b, y), Entry(c, z), a);
    MatchThree(Entry(a, x), Entry(b, y), Entry(c, z), b);
    MatchThree(Entry(a, x), Entry(b, y), Entry(c, z), c);
    LookupAnyDash(r, a, false);
    LookupAnyDash(r, b, false);
    LookupAnyDash(r, c, false);
  }

  /**
   * testNormalAddAndRemoveArgument (lines 31-55): removing a key stored once
   * succeeds, drops one entry and leaves a null lookup; adding it back makes it
   * readable under every dash form again.
   */
  lemma RemoveThenAddBack(r: Store, a: string, x: string)
    requires Valid(r) && r.stripDashes && Plain(a)
    requires MatchValues(r.entries, a) == [x]
    ensures var (r1, found) := RemoveArg(r, a);
      && found
      && |r1.entries| == |r.entries| - 1
      && GetArg(r1, a, false).1 == Null
      && var r2 := AddArg(r1, a, x);
      && GetArg(r2, "--" + a, false).1 == Scalar(x)
      && GetArg(r2, "-" + a, false).1 == Scalar(x)
      && GetArg(r2, a, false).1 == Scalar(x)
  {
    StripDashesIdentity(a);
    MatchValuesEmpty(r.entries, a);
    var r1 := RemoveArg(r, a).0;
    FreshNull(r1.entries, a, false);
    AddArgRoundTrip(r1, a, x, false);
    LookupAnyDash(AddArg(r1, a, x), a, false);
  }

  /** Lookups over `[--f=b, --n=j1, --n=j2]`. */
  lemma DuplicateLookups(f: string, b: string, n: string, j1: string, j2: string)
    requires f != n
    ensures var es := [Entry(f, b), Entry(n, j1), Entry(n, j2)];
      && Fresh(es, f, false) == Scalar(b)
      && Fresh(es, n, false) == List([j1, j2])
      && Fresh(es, n, true) == (if j1 == j2 then Scalar(j1) else List([j1, j2]))
  {
    MatchThree(Entry(f, b), Entry(n, j1), Entry(n, j2), f);
    MatchThree(Entry(f, b), Entry(n, j1), Entry(n, j2), n);
    if j1 == j2 {
      DedupAllEqual([j1, j2], j1);
    } else {
      assert Distinct([j1, j2]);
      DedupOfDistinct([j1, j2]);
    }
  }

  /**
   * testDuplicateKeys and testDuplicateValues (lines 78-117): two `--n=...` tokens
   * give a list in token order; with `uniqueValues` two equal values give the
   * scalar.
   */
  lemma DuplicateKeys(inst: Option<Store>, script: string, f: string, b: string,
                      n: string, j1: string, j2: string)
    requires Plain(f) && Plain(n) && f != n
    requires '=' !in b && '=' !in j1 && '=' !in j2
    ensures var r := GetInstance(inst, Some([script, Dashed(f, b), Dashed(n, j1), Dashed(n, j2)]), Some(4), true);
      && |r.entries| == 3
      && GetArg(r, "--" + f, false).1 == Scalar(b)
      && GetArg(r, "--" + n, false).1 == List([j1, j2])
      && GetArg(r, "--" + n, true).1 == (if j1 == j2 then Scalar(j1) else List([j1, j2]))
  {
    var args := [script, Dashed(f, b), Dashed(n, j1), Dashed(n, j2)];
    var r := GetInstance(inst, Some(args), Some(4), true);
    GetInstanceParses(inst, args, true);
    assert Options(args) == [Dashed(f, b), Dashed(n, j1), Dashed(n, j2)];
    ThreeDashedParsed(f, b, n, j1, n, j2);
    DuplicateLookups(f, b, n, j1, j2);
    LookupAnyDash(r, f, false);
    LookupAnyDash(r, n, false);
    LookupAnyDash(r, n, true);
  }

  /** Cost helper: ParsedTwo with the contributions abstracted into `e` and `fl`. */
  lemma TwoParsed(t1: string, t2: string, e: seq<Entry>, fl: seq<string>, strip: bool)
    requires PairEntry(t1, strip) + PairEntry(t2, strip) == e
    requires BareFlag(t1, strip) + BareFlag(t2, strip) == fl
    ensures ParsedEntries([t1, t2], strip) == e
    ensures ParsedFlags([t1, t2], strip) == fl
  {
    ParsedTwo(t1, t2, strip);
  }

  lemma MentionsTwo(t1: string, t2: string, words: seq<string>)
    ensures Mentions([t1, t2], words) <==> ('=' !in t1 && t1 in words) || ('=' !in t2 && t2 in words)
  {
    var toks := [t1, t2];
    assert toks[0] == t1 && toks[1] == t2;
  }

  /** The `--k=v` token contains its separator. */
  lemma DashedHasSeparator(k: string, v: string)
    ensures '=' in Dashed(k, v)
  {
    var p := Dashed(k, v);
    assert p == ("--" + k) + "=" + v;
    assert p[|"--" + k|] == '=';
  }

  /** A token that stores `Entry(k, v)` when parsed with stripping on. */
  predicate StoresPair(p: string, k: string, v: string) {
    '=' in p && PairEntry(p, true) == [Entry(k, v)]
  }

  lemma DashedStoresPair(k: string, v: string)
    requires Plain(k) && '=' !in v
    ensures StoresPair(Dashed(k, v), k, v)
  {
    DashedEntry(k, v);
    DashedHasSeparator(k, v);
  }

  /** Two option tokens through `getInstance`: the store holds what they contribute. */
  lemma TwoTokenInstance(inst: Option<Store>, script: string, t1: string, t2: string,
                         e: seq<Entry>, help: bool, verbose: bool)
    requires ParsedEntries([t1, t2], true) == e
    requires Mentions([t1, t2], HelpWords) == help
    requires Mentions([t1, t2], VerboseWords) == verbose
    ensures var r := GetInstance(inst, Some([script, t1, t2]), Some(3), true);
      r.help == help && r.verbose == verbose && r.entries == e
  {
    var args := [script, t1, t2];
    assert Options(args) == [t1, t2];
    GetInstanceParses(inst, args, true);
  }

  /** What the two tokens of a word and a pair contribute, in either order. */
  lemma WordAndPairParsed(t1: string, t2: string, w: string, p: string, k: string, v: string)
    requires '=' !in w
    requires StoresPair(p, k, v)
    requires (t1 == w && t2 == p) || (t1 == p && t2 == w)
    ensures ParsedEntries([t1, t2], true) == [Entry(k, v)]
    ensures Mentions([t1, t2], HelpWords) <==> w in HelpWords
    ensures Mentions([t1, t2], VerboseWords) <==> w in VerboseWords
  {
    assert ParsedEntries([t1, t2], true) == [Entry(k, v)] by {
      BareEntry(w);
      TwoParsed(t1, t2, [Entry(k, v)], [StripDashes(w)], true);
    }
    MentionsTwo(t1, t2, HelpWords);
    MentionsTwo(t1, t2, VerboseWords);
  }

  /**
   * testHelpFunction and testVerboseFunction (lines 119-225): next to a
   * `key=value` token, a bare token sets help (verbose) exactly when it is a help
   * (verbose) word, before or after the pair alike.
   */
  lemma HelpAndVerboseAnywhere(inst: Option<Store>, script: string, w: string, p: string, k: string, v: string)
    requires '=' !in w
    requires StoresPair(p, k, v)
    ensures var before := GetInstance(inst, Some([script, w, p]), Some(3), true);
      && (before.help <==> w in HelpWords)
      && (before.verbose <==> w in VerboseWords)
      && before.entries == [Entry(k, v)]
    ensures var after := GetInstance(inst, Some([script, p, w]), Some(3), true);
      && (after.help <==> w in HelpWords)
      && (after.verbose <==> w in VerboseWords)
      && after.entries == [Entry(k, v)]
  {
    WordAndPairParsed(w, p, w, p, k, v);
    TwoTokenInstance(inst, script, w, p, [Entry(k, v)], w in HelpWords, w in VerboseWords);
    WordAndPairParsed(p, w, w, p, k, v);
    TwoTokenInstance(inst, script, p, w, [Entry(k, v)], w in HelpWords, w in VerboseWords);
  }

  /** The same tests' third and fourth cases: without the word, neither is set. */
  lemma NoHelpWithoutWord(inst: Option<Store>, script: string, p: string, k: string, v: string)
    requires StoresPair(p, k, v) && Plain(k)
    ensures var r := GetInstance(inst, Some([script, p]), Some(2), true);
      && !r.help && !r.verbose
      && GetArg(r, "--" + k, false).1 == Scalar(v)
  {
    var args := [script, p];
    GetInstanceParses(inst, args, true);
    assert Options(args) == [p];
    ParsedSingleton(p, true);
    assert !Mentions([p], HelpWords) && !Mentions([p], VerboseWords);
    var r := GetInstance(inst, Some(args), Some(2), true);
    MatchOne(Entry(k, v), k);
    LookupAnyDash(r, k, false);
  }

  /** Three bare tokens contribute their stripped forms as flags and no entries. */
  lemma ThreeBareParsed(q1: string, q2: string, q3: string, f1: string, f2: string, f3: string)
    requires '=' !in q1 && '=' !in q2 && '=' !in q3
    requires StripDashes(q1) == f1 && StripDashes(q2) == f2 && StripDashes(q3) == f3
    ensures ParsedFlags([q1, q2, q3], true) == [f1, f2, f3]
    ensures ParsedEntries([q1, q2, q3], true) == []
  {
    BareEntry(q1);
    BareEntry(q2);
    BareEntry(q3);
    ParsedThreeBare(q1, q2, q3, f1, f2, f3, true);
  }

  /** Cost helper: three bare tokens whose contributions are known, with the
      tokens abstracted so that the caller's proof stays small. */
  lemma ParsedThreeBare(q1: string, q2: string, q3: string, f1: string, f2: string, f3: string, strip: bool)
    requires BareFlag(q1, strip) == [f1] && BareFlag(q2, strip) == [f2] && BareFlag(q3, strip) == [f3]
    requires PairEntry(q1, strip) == [] && PairEntry(q2, strip) == [] && PairEntry(q3, strip) == []
    ensures ParsedFlags([q1, q2, q3], strip) == [f1, f2, f3]
    ensures ParsedEntries([q1, q2, q3], strip) == []
  {
    ParsedThreeEntries(q1, q2, q3, strip);
    ParsedThreeFlags(q1, q2, q3, strip);
  }

  /** What a flag lookup sees, by the normal form of the flag asked for. */
  lemma FlagLookup(r: Store, g: string, fs: seq<string>)
    requires r.stripDashes && r.flags == fs + fs
    ensures HasFlag(r, g) <==> StripDashes(g) in fs
  {
  }

  /** The flags a first `getInstance` over three bare tokens holds: each twice. */
  lemma FirstCallFlags(script: string, q1: string, q2: string, q3: string,
                       f1: string, f2: string, f3: string)
    requires '=' !in q1 && '=' !in q2 && '=' !in q3
    requires StripDashes(q1) == f1 && StripDashes(q2) == f2 && StripDashes(q3) == f3
    ensures var r := GetInstance(None, Some([script, q1, q2, q3]), Some(4), true);
      r.stripDashes && r.flags == [f1, f2, f3] + [f1, f2, f3]
  {
    var args := [script, q1, q2, q3];
    assert ParsedFlags(Options(args), true) == [f1, f2, f3] by {
      assert Options(args) == [q1, q2, q3];
      ThreeBareParsed(q1, q2, q3, f1, f2, f3);
    }
    GetInstanceFirstCallParsesTwice(args, true);
  }

  /** Removing three flags by their bare names leaves no dash form of any of them. */
  lemma RemoveThreeFlags(r: Store, f1: string, f2: string, f3: string, g: string)
    requires r.stripDashes
    requires !StartsWithDash(f1) && !StartsWithDash(f2) && !StartsWithDash(f3)
    requires StripDashes(g) in [f1, f2, f3]
    ensures !HasFlag(RemoveFlag(RemoveFlag(RemoveFlag(r, f1), f2), f3), g)
  {
    StripDashesIdentity(f1);
    StripDashesIdentity(f2);
    StripDashesIdentity(f3);
    var r1 := RemoveFlag(r, f1);
    var r2 := RemoveFlag(r1, f2);
    var r3 := RemoveFlag(r2, f3);
    RemoveFlagKeepsAbsent(r1, f2, f1);
    RemoveFlagKeepsAbsent(r2, f3, f1);
    RemoveFlagKeepsAbsent(r2, f3, f2);
    assert r3.stripDashes;
  }

  /** A flag absent before a removal stays absent after it. */
  lemma RemoveFlagKeepsAbsent(s: Store, flag: string, f: string)
    requires f !in s.flags
    ensures f !in RemoveFlag(s, flag).flags
  {
    var r := RemoveFlag(s, flag);
    if f != flag && f != Normalize(s.stripDashes, flag) {
      assert multiset(r.flags)[f] == multiset(s.flags)[f];
    }
  }

  /**
   * testFlagFunctions (lines 227-261): on a first `getInstance` with three flag
   * tokens, every dash form of each flag is found and an unrelated one is not;
   * after removing each flag by its bare name, no form of any of them is found.
   */
  lemma FlagFunctions(script: string, q1: string, q2: string, q3: string,
                      f1: string, f2: string, f3: string, g: string)
    requires '=' !in q1 && '=' !in q2 && '=' !in q3
    requires StripDashes(q1) == f1 && StripDashes(q2) == f2 && StripDashes(q3) == f3
    ensures var r := GetInstance(None, Some([script, q1, q2, q3]), Some(4), true);
      && (HasFlag(r, g) <==> StripDashes(g) in [f1, f2, f3])
      && (StripDashes(g) in [f1, f2, f3] ==>
            !HasFlag(RemoveFlag(RemoveFlag(RemoveFlag(r, f1), f2), f3), g))
  {
    var r := GetInstance(None, Some([script, q1, q2, q3]), Some(4), true);
    FirstCallFlags(script, q1, q2, q3, f1, f2, f3);
    FlagLookup(r, g, [f1, f2, f3]);
    if StripDashes(g) in [f1, f2, f3] {
      RemoveThreeFlags(r, f1, f2, f3, g);
    }
  }
}

=== FILE: tokens.dfy ===
/**
 * Splitting a raw argv token on `=` (PHP's `explode('=', $arg)`) and the
 * three-way classification the parser applies to every non-script token.
 */
module Tokens {

  /** How many `=` characters a token holds. */
  function EqCount(s: string): nat {
    multiset(s)['=']
  }

  /** `implode('=', $pieces)`: the inverse of Explode. */
  function Join(pieces: seq<string>): string
    requires |pieces| >= 1
  {
    if |pieces| == 1 then pieces[0] else pieces[0] + "=" + Join(pieces[1..])
  }

  /** `explode('=', $s)`: the maximal `=`-free pieces between the separators. */
  function Explode(s: string): (pieces: seq<string>)
    ensures |pieces| >= 1
    ensures forall i :: 0 <= i < |pieces| ==> '=' !in pieces[i]
    ensures Join(pieces) == s
    decreases |s|
  {
    if |s| == 0 then [""]
    else
      var rest := Explode(s[1..]);
      if s[0] == '=' then
        assert ([""] + rest)[1..] == rest;
        [""] + rest
      else
        var pieces := [[s[0]] + rest[0]] + rest[1..];
        assert pieces[1..] == rest[1..];
        assert |rest| > 1 ==> Join(rest) == rest[0] + "=" + Join(rest[1..]);
        pieces
  }

  /** One more piece than there are separators. */
  lemma {:induction false} ExplodeCount(s: string)
    ensures |Explode(s)| == EqCount(s) + 1
    decreases |s|
  {
    if |s| > 0 {
      assert s == [s[0]] + s[1..];
      ExplodeCount(s[1..]);
    }
  }

  /** Splitting off one `=`-free prefix at the first separator. */
  lemma {:induction false} ExplodeAtSeparator(a: string, t: string)
    requires '=' !in a
    ensures Explode(a + "=" + t) == [a] + Explode(t)
    decreases |a|
  {
    if |a| == 0 {
      assert a + "=" + t == "=" + t;
      ExplodeConsSeparator(t);
    } else {
      ExplodeAtSeparator(a[1..], t);
      assert a + "=" + t == [a[0]] + (a[1..] + "=" + t);
      ExplodeConsChar(a[0], a[1..] + "=" + t);
      assert [a[0]] + a[1..] == a;
    }
  }

  lemma ExplodeConsSeparator(s: string)
    ensures Explode("=" + s) == [""] + Explode(s)
  {
    assert ("=" + s)[1..] == s;
  }

  /** Explode of a string starting with a non-separator extends the first piece. */
  lemma ExplodeConsChar(c: char, s: string)
    requires c != '='
    ensures Explode([c] + s) == [[c] + Explode(s)[0]] + Explode(s)[1..]
  {
    assert ([c] + s)[1..] == s;
  }

  lemma {:induction false} ExplodeWithoutSeparator(a: string)
    requires '=' !in a
    ensures Explode(a) == [a]
    decreases |a|
  {
    if |a| > 0 {
      ExplodeWithoutSeparator(a[1..]);
      assert [a[0]] + a[1..] == a;
    }
  }

  /** Explode undoes Join on `=`-free pieces, so the two are inverse. */
  lemma {:induction false} ExplodeJoin(pieces: seq<string>)
    requires |pieces| >= 1
    requires forall i :: 0 <= i < |pieces| ==> '=' !in pieces[i]
    ensures Explode(Join(pieces)) == pieces
    decreases |pieces|
  {
    if |pieces| == 1 {
      ExplodeWithoutSeparator(pieces[0]);
    } else {
      ExplodeJoin(pieces[1..]);
      ExplodeAtSeparator(pieces[0], Join(pieces[1..]));
      assert [pieces[0]] + pieces[1..] == pieces;
    }
  }

  /** What the parser does with one token (Argvs.php lines 171-190). */
  datatype Token =
    | Bare(name: string)                 // no `=`: a flag
    | Pair(key: string, value: string)   // exactly one `=`: an argument
    | Malformed                          // two or more `=`: dropped

  function Classify(tok: string): (t: Token)
    ensures t.Bare? <==> '=' !in tok
    ensures t.Bare? ==> t.name == tok
    ensures t.Pair? ==> '=' !in t.key && '=' !in t.value
  {
    if '=' !in tok then Bare(tok)
    else
      var pieces := Explode(tok);
      if |pieces| == 2 then Pair(pieces[0], pieces[1]) else Malformed
  }

  /** The classification by the number of `=`: none is a flag, exactly one a pair
      that reassembles into the token, more is dropped. */
  lemma ClassifyCounts(tok: string)
    ensures Classify(tok).Bare? <==> EqCount(tok) == 0
    ensures Classify(tok).Pair? <==> EqCount(tok) == 1
    ensures Classify(tok).Malformed? <==> EqCount(tok) >= 2
    ensures Classify(tok).Pair? ==> tok == Classify(tok).key + "=" + Classify(tok).value
  {
    ExplodeCount(tok);
    assert '=' in tok <==> EqCount(tok) > 0;
    var pieces := Explode(tok);
    if |pieces| == 2 {
      assert Join(pieces) == pieces[0] + "=" + Join(pieces[1..]);
    }
  }

  /** `key=value` with `=`-free sides is always read back as that pair. */
  lemma ClassifyPair(k: string, v: string)
    requires '=' !in k && '=' !in v
    ensures Classify(k + "=" + v) == Pair(k, v)
  {
    ExplodeJoin([k, v]);
    assert Join([k, v]) == k + "=" + v by {
      assert [k, v][1..] == [v];
    }
  }
}

=== FILE: wrappers.dfy ===
/** The optional value used where the source stores or accepts `null`. */
module Wrappers {

  datatype Option<+T> = None | Some(value: T)

}
